=== FILE: README.md ===
# Portfolio site: a Dafny model of its logic

The repository is a personal portfolio site written in React. Most of it is
presentation. The logic it does contain sits inside the components as small
state transitions and list expressions. This project models that logic as
immutable datatypes and pure functions, and proves properties about them:

- `Types` (`types.dfy`): the records of `src/types/index.ts`. Each union of
  string literals becomes an enumeration. Each optional field becomes an
  `Option`. The documented 1..100 range of a skill level becomes the subset
  type `Level`, so no `Skill` value can break it. The module `Optional` in
  the same file holds `Option`.
- `Auth` (`auth.dfy`): the admin session of the authentication provider. The
  state is the user held in memory plus the persisted `adminUser` storage
  slot. The operations are the mount-time restore, `login`, `logout` and
  `isAuthenticated`.
- `BeaverGame` (`beaver_game.dfy`): the whack-a-beaver widget. Every timer
  firing is an explicit `Event`: the two-second spawn interval, the
  three-second expiry, the one-second removal after a hit and the
  five-second respawn. Clicks are events too. A click carries the beaver as
  the last render showed it, which a timer may already have removed from
  the field. Random draws and clock readings arrive as a `Draw` record. `Step` applies one event and `Run`
  applies a sequence of them.
- `Timeline` (`timeline.dfy`): `formatDate`, which turns `"YYYY-MM"` into
  `"Mon YYYY"`.
- `Projects` (`projects.dfy`): the technology filter buttons, the filtered
  list, the technology badges with their "+n more" label, and the year shown
  on a card.
- `Gallery` (`gallery.dfy`): the category filter, the thumbnail fallback,
  the first three tags, the type badge and the empty state.
- `Skills` (`skills.dfy`): the declared skill list and its group-by-category
  `reduce`.
- `Contact` (`contact.dfy`): the form record, `handleChange` and
  `handleSubmit`.
- `Seqs` (`seqs.dfy`) and `Strings` (`strings.dfy`): the JavaScript built-ins
  these components use. They cover `filter`, `slice(0, n)`, `flatMap`,
  de-duplication through `new Set`, `split`, rendering a number as text and
  `parseInt` on digit strings. `Join` is not used by any component; it is the
  inverse that states the round trip of `Split`.

The grouping in `Skills` is specified without the reducer by `GroupsOf`. The
keys are the categories in order of first occurrence, which is `Dedup` of the
category list. Each group holds exactly the skills of its category, in their
original order, which is `Filter` of the skill list. `GroupedSkillsCorrect`
proves that the reducer computes this.

`formatDate` indexes the month table with no range check. A month outside
1..12, or a date without a month, therefore produces JavaScript's
`undefined`, and the template literal renders it as the text "undefined".
The model follows the code and keeps `FormatDate` total. `OutOfRangeMonth`
states this behaviour. A precondition restricting the month to 1..12 would
hide it.

## Model

| member | source | states |
|---|---|---|
| Auth.Login | src/contexts/AuthContext.tsx:31-45 | login succeeds exactly for "admin"/"admin123"; on success the user and the stored slot are both the fixed admin record; on failure the state is unchanged |
| Auth.Token | src/contexts/AuthContext.tsx:38 | the token is "dummy-token-" followed by the canonical decimal text of the clock, which reads back as the clock value |
| Auth.IsAuthenticated | src/contexts/AuthContext.tsx:57 | while memory and storage agree, the provider is authenticated exactly when the storage slot holds a record |
| Auth.Restore | src/contexts/AuthContext.tsx:24-29 | a stored record is adopted as the user; an empty slot leaves the user as it was; the slot is untouched |
| Auth.Mount | src/contexts/AuthContext.tsx:22-29 | a freshly mounted provider is authenticated exactly when the slot holds a record, and then holds that record |
| Auth.Logout | src/contexts/AuthContext.tsx:47-50 | after logout nobody is authenticated and the slot is empty |
| Auth.LogoutIdempotent | src/contexts/AuthContext.tsx:47-50 | logging out twice equals logging out once, and leaves memory and storage in agreement |
| Auth.FailedLoginStaysSignedOut | src/contexts/AuthContext.tsx:44 | a failed login leaves a signed-out provider signed out and its slot unchanged |
| Auth.InSyncPreserved | src/contexts/AuthContext.tsx:24-50 | mount, login and logout each keep the in-memory user equal to the stored record |
| Auth.LoginSurvivesReload | src/contexts/AuthContext.tsx:25-41 | a reload after a successful login restores the same user, authenticated |
| Auth.LogoutSurvivesReload | src/contexts/AuthContext.tsx:25-50 | a reload after logout finds nobody signed in |
| Auth.TokenUniquePerClock | src/contexts/AuthContext.tsx:38 | two tokens are equal if and only if they were issued at the same clock reading |
| BeaverGame.Coordinate | src/components/BeaverGame.tsx:40-41 | for a random draw in [0,1) the coordinate lies in [10,90) |
| BeaverGame.NewBeaver | src/components/BeaverGame.tsx:38-44 | a new beaver carries the drawn id and clock, is not hit and lies inside the field |
| BeaverGame.StartGame | src/components/BeaverGame.tsx:21-25 | start sets playing, resets the score to 0 and empties the field |
| BeaverGame.StopGame | src/components/BeaverGame.tsx:28-33 | stop clears playing and the interval and leaves field and score alone |
| BeaverGame.StartEffect | src/components/BeaverGame.tsx:81-116 | once the playing flag is set, the field becomes exactly one unhit beaver inside the field and the interval is registered; score and flag stay |
| BeaverGame.StopEffect | src/components/BeaverGame.tsx:123-129 | once the playing flag is clear, the field is emptied and the interval cleared; score and flag stay |
| BeaverGame.Spawn | src/components/BeaverGame.tsx:36-47 | a spawn appends exactly one unhit beaver inside the field and keeps the existing beavers unchanged and in order |
| BeaverGame.RemoveBeaver | src/components/BeaverGame.tsx:51 | removal keeps exactly the beavers with a different id and changes nothing else |
| BeaverGame.HitBeaver | src/components/BeaverGame.tsx:56-65 | a hit marks exactly the beavers with that id, keeps the length and every other field, and adds 10 to the score |
| BeaverGame.ClickBeaver | src/components/BeaverGame.tsx:56-65 | a click on a beaver the last render showed unhit marks every beaver with its id as hit and adds 10, whether or not it is still on the field; a click on a beaver rendered as hit changes nothing |
| BeaverGame.StartLeavesOneBeaver | src/components/BeaverGame.tsx:81-98 | starting a stopped game leaves exactly one unhit beaver inside the field, score 0, interval running |
| BeaverGame.StartThenTick | src/components/BeaverGame.tsx:101-116 | one interval tick after a start puts a second beaver on the field |
| BeaverGame.StopClears | src/components/BeaverGame.tsx:123-129 | stopping a running game empties the field, and a later tick adds nothing |
| BeaverGame.ScoreBookkeeping | src/components/BeaverGame.tsx:21-65 | only a start (reset to 0) and a click on a beaver rendered unhit (plus 10) change the score |
| BeaverGame.RespawnAfterStop | src/components/BeaverGame.tsx:72-77 | a respawn scheduled by a hit before a stop still puts one beaver on the stopped field, because it tests the playing flag seen at the hit |
| BeaverGame.ClickOnHitIsNoOp | src/components/BeaverGame.tsx:284 | clicking a beaver rendered as hit changes neither the field nor the score |
| BeaverGame.ClickOnCurrent | src/components/BeaverGame.tsx:284 | clicking an unhit beaver the field still shows marks it hit, keeps the field's length and adds 10 |
| BeaverGame.StaleClickScores | src/components/BeaverGame.tsx:51-65 | clicking a beaver a timer removed since the last render leaves the field unchanged but still adds 10 |
| BeaverGame.RemoveIdempotent | src/components/BeaverGame.tsx:51 | removing an id twice equals removing it once |
| BeaverGame.RemoveAbsentIsNoOp | src/components/BeaverGame.tsx:69 | removing an id that no beaver carries changes nothing |
| BeaverGame.RemoveKeepsOthersInOrder | src/components/BeaverGame.tsx:114 | removal works piecewise over the list, so the others keep their order, and each other beaver keeps its multiplicity |
| BeaverGame.RemovalsCommute | src/components/BeaverGame.tsx:68-70 | two removal timers give the same field whichever fires first |
| BeaverGame.Step | src/components/BeaverGame.tsx:21-130 | after an event the game is playing exactly when it was a start, or it was playing and the event is not a stop; a stop clears the interval and a start from stopped registers it; no other event touches the interval; a tick without the interval and a respawn whose hit saw a stopped game change nothing; removals and clicks keep the playing flag |
| BeaverGame.StepValid | src/components/BeaverGame.tsx:12-130 | every event keeps the score a non-negative multiple of 10, every beaver inside the field, and the interval registered only while playing |
| BeaverGame.Run | src/components/BeaverGame.tsx:12-130 | any sequence of events, applied in order, preserves that invariant |
| BeaverGame.RunConcat | src/components/BeaverGame.tsx:12-130 | applying two batches of events one after the other is applying them as one sequence |
| BeaverGame.ReachableScore | src/components/BeaverGame.tsx:14-65 | from the initial widget, every reachable score is a non-negative multiple of 10 |
| Timeline.MonthLabel | src/components/Timeline.tsx:47-48 | a month that parses to m in 1..12 gives the m-th abbreviation; every other input gives "undefined" |
| Timeline.FormatDate | src/components/Timeline.tsx:44-49 | "Present" passes through; otherwise the text before the first dash ends the label, after a blank |
| Timeline.ParseTwoDigits | src/components/Timeline.tsx:48 | parseInt reads a two-digit month back as its number |
| Timeline.SplitDate | src/components/Timeline.tsx:46 | splitting a dated entry at "-" gives its year and month texts |
| Timeline.FormatYearMonth | src/components/Timeline.tsx:46-48 | for any dash-free year and month text that parseInt reads as m in 1..12 (such as "3", "03" or "003") the label is the m-th abbreviation, a blank and the year |
| Timeline.OutOfRangeMonth | src/components/Timeline.tsx:46-48 | for a dash-free month text that parseInt cannot read, or reads as a number outside 1..12, the label is "undefined", a blank and the year |
| Timeline.MonthlessDate | src/components/Timeline.tsx:44-48 | a date with no dash other than "Present" has no month, so its label is "undefined", a blank and the date |
| Timeline.FormatTwoDigitMonth | src/components/Timeline.tsx:46-48 | the "YYYY-MM" form the data uses gives the m-th abbreviation, a blank and the year |
| Timeline.MonthTable | src/components/Timeline.tsx:47 | the month table has twelve distinct entries, from "Jan" to "Dec" |
| Projects.Technologies | src/components/Projects.tsx:68 | a technology is listed exactly when some project uses it |
| Projects.Categories | src/components/Projects.tsx:68 | "all" comes first, then every technology of every project exactly once, in order of first occurrence |
| Projects.FilterButtons | src/components/Projects.tsx:89 | "all" first, then a prefix of the categories: all of them when there are at most 8, otherwise exactly the first 8 |
| Projects.FilteredProjects | src/components/Projects.tsx:70-72 | "all" keeps the list; otherwise exactly the projects using the technology, each with its multiplicity |
| Projects.FilteredKeepsOrder | src/components/Projects.tsx:72 | filtering works piecewise over the list, so projects keep their relative order |
| Projects.EveryButtonSelectsSomething | src/components/Projects.tsx:68-72 | every button after "all" selects at least one project, including a technology that is itself named "all" |
| Projects.TechBadges | src/components/Projects.tsx:165-177 | a card shows the first min(3, n) technologies, and a "+(n-3) more" label exactly when n > 3 |
| Projects.BadgesAccountForAll | src/components/Projects.tsx:173-176 | the number in the "+n more" label is the count of technologies without a badge |
| Projects.DisplayYear | src/components/Projects.tsx:183 | the shown year is the prefix of the start date before the first dash |
| Projects.DisplayYearOfYearMonth | src/components/Projects.tsx:183 | for a start date "year-month" the card shows the year |
| Gallery.FilteredItems | src/components/Gallery.tsx:86-88 | "all" keeps the list; otherwise exactly the items of the selected category, each with its multiplicity |
| Gallery.FilteredKeepsOrder | src/components/Gallery.tsx:88 | filtering works piecewise over the list, so items keep their original order |
| Gallery.ShowsEmptyState | src/components/Gallery.tsx:205 | the empty state shows exactly when nothing matches: for "all" when there are no items, otherwise when no item has the category |
| Gallery.CardImage | src/components/Gallery.tsx:144 | the card shows a present, non-empty thumbnail, otherwise the full url |
| Gallery.VisibleTags | src/components/Gallery.tsx:180 | at most three tags, the first ones, none when the item has no tag list |
| Gallery.TypeBadge | src/components/Gallery.tsx:156 | the badge reads Image exactly for image items and Document exactly for document items |
| Gallery.FilterIdempotentByCategory | src/components/Gallery.tsx:86-88 | filtering the filtered list again by the same category changes nothing |
| Skills.GroupIndex | src/components/Skills.tsx:39 | the position of the first group with the category, or the end when there is none |
| Skills.AddSkillCorrect | src/components/Skills.tsx:39-41 | one reducer step turns the grouping of a list into the grouping of that list with the skill appended |
| Skills.AddToExisting | src/components/Skills.tsx:40 | pushing onto an existing group keeps the keys and every group exact |
| Skills.AddNew | src/components/Skills.tsx:39-40 | creating the group of a new category appends that key and keeps every group exact |
| Skills.GroupedSkillsCorrect | src/components/Skills.tsx:38-42 | the reduce yields the categories in order of first occurrence, each with exactly its skills in their original order |
| Skills.GroupingShape | src/components/Skills.tsx:38-42 | one group per occurring category, none empty, every skill in the group of its own category |
| Skills.AddSkill | src/components/Skills.tsx:39-41 | one reducer step adds the skill's category as a new last key when it is absent, keeps the keys otherwise, and grows the groups by exactly one skill |
| Skills.GroupedSkills | src/components/Skills.tsx:38-42 | there are at most as many groups as skills, and the group sizes add up to the number of skills, so every skill lands in exactly one group |
| Skills.DeclaredCategories | src/components/Skills.tsx:5-29 | the declared skills are six technical, four tool, four soft and two language skills, in that order |
| Skills.DeclaredCategoryOrder | src/components/Skills.tsx:5-29 | the declared categories first occur in the order technical, tool, soft, language |
| Skills.DeclaredGrouping | src/components/Skills.tsx:5-42 | the declared skills group into technical, tool, soft and language, in that order, holding 16 skills |
| Contact.HandleChange | src/components/Contact.tsx:66-71 | the named field takes the new value and the other three fields are unchanged |
| Contact.HandleSubmit | src/components/Contact.tsx:58-64 | after submit every field is empty, whatever was typed |
| Contact.InitialIsEmpty | src/components/Contact.tsx:6-11 | the initial form is empty in every field |
| Contact.LastChangeWins | src/components/Contact.tsx:66-71 | two changes to the same field keep only the last value |
| Contact.ChangesCommute | src/components/Contact.tsx:66-71 | changes to two different fields give the same form in either order |
| Contact.ChangeToSameValue | src/components/Contact.tsx:66-71 | writing a field's current text back leaves the form unchanged |
| Seqs.Dedup | src/components/Projects.tsx:68 | `new Set` keeps exactly the elements of its input, each once |
| Seqs.DedupOrder | src/components/Projects.tsx:68 | `new Set` lists the elements in order of first occurrence |
| Seqs.Filter | src/components/Projects.tsx:72 | `filter` returns no more elements than it is given, and an element is in the result exactly when it is in the input and satisfies the predicate |
| Seqs.Take | src/components/Projects.tsx:89 | `slice(0, n)` returns a prefix of length min(n, length) |
| Seqs.FlatMap | src/components/Projects.tsx:68 | `flatMap` contains every element of every image, and nothing that is in no image |
| Seqs.FlatMapConcat | src/components/Projects.tsx:68 | `flatMap` distributes over concatenation, so the images appear in the order of their elements, with every repetition |
| Seqs.FlatMapSingle | src/components/Projects.tsx:68 | the `flatMap` of one element is exactly its image |
| Seqs.FilterCount | src/components/Projects.tsx:72 | `filter` keeps each accepted element as often as it occurs and drops the rest |
| Seqs.FilterConcat | src/components/Projects.tsx:72 | `filter` distributes over concatenation |
| Seqs.FilterCommutes | src/components/BeaverGame.tsx:51 | filtering by two predicates in either order gives the same list |
| Strings.NatToString | src/contexts/AuthContext.tsx:38 | a number renders as a canonical digit string that reads back as the number |
| Strings.RenderParse | src/contexts/AuthContext.tsx:38 | a canonical digit string is the rendering of its own value |
| Strings.ParseDecimal | src/components/Timeline.tsx:48 | a string of n digits is worth less than 10^n, and at least 10^(n-1) when it does not start with a zero |
| Strings.LeadingDigits | src/components/Timeline.tsx:48 | the part parseInt reads is the longest prefix made of digits: a prefix, all digits, and followed by a non-digit or the end |
| Strings.ParseInt | src/components/Timeline.tsx:48 | parseInt gives a number exactly when the text starts with a digit; which number is stated by `ParseIntReadsRendering` and `ParseIntLeadingZeros` |
| Strings.LeadingDigitsAppend | src/components/Timeline.tsx:48 | parseInt stops reading at the first non-digit: the digits of a digit string followed by other text are that string |
| Strings.ParseIntReadsRendering | src/components/Timeline.tsx:48 | parseInt reads the decimal text of n, followed by any text not starting with a digit, as n |
| Strings.ParseDecimalZeros | src/components/Timeline.tsx:48 | leading zeros do not change the value of a digit string |
| Strings.ParseIntLeadingZeros | src/components/Timeline.tsx:48 | parseInt reads any number of zeros followed by the decimal text of n, such as "003", as n |
| Strings.Split | src/components/Timeline.tsx:46 | the first piece is the prefix before the first separator, and no piece contains the separator |
| Strings.JoinSplit | src/components/Timeline.tsx:46 | joining the pieces of a split with the separator gives the text back |
| Strings.SplitJoin | src/components/Timeline.tsx:46 | splitting a join of separator-free pieces gives the pieces back |

## Left out

- Rendering, animation and styling (JSX, framer-motion, Tailwind classes) have no behaviour to state. This includes the capitalised button labels of the projects filter and the project detail modal.
- Timer scheduling is left out: `setTimeout`, `setInterval` and `clearInterval`, and so the delays of 2, 3, 1 and 5 seconds. Each firing is an event that may arrive in any order. A `Tick` has an effect only while the interval is registered.
- `BeaverGame.Step`: the five-second respawn reads the `isPlaying` value the hit handler closed over. The model takes that value as the `playingAtHit` field of the event and does not relate it to the state at the time of the hit. `RespawnAfterStop` shows the consequence.
- `BeaverGame.ClickBeaver`: when React renders is not modelled. A click may carry any beaver, and the model does not tie that beaver to a state that was actually rendered earlier.
- `Math.random` and `Date.now` are parameters (`Draw`, `now`). Beaver ids arrive as they are given. Their uniqueness is neither assumed nor proved.
- `BeaverGame.Coordinate`: coordinates are exact reals, not IEEE doubles.
- `Auth.Token`: the token is unique only per clock reading. Two logins in the same millisecond get the same token (`TokenUniquePerClock`).
- `localStorage` and JSON are an `Option<AdminUser>` slot that is taken to round-trip. A `JSON.parse` throw on malformed stored data is not modelled.
- `Strings.ParseInt`: reads a leading run of decimal digits only. It does not model `parseInt`'s skipping of leading whitespace, signs, or the `0x` prefix. None of these occur in the dates the timeline uses.
- `Timeline.FormatDate`: the `undefined` that a month outside 1..12 produces is modelled as its rendered text "undefined". `NaN` arithmetic and array holes are not modelled further.
- The gallery's date formatting with `toLocaleDateString` and its modal are locale-dependent presentation.
- The category labels and icons of the skills section are presentation. Only the grouping is modelled.
- A skill level is an integer in 1..100 (`Level`). The declared type `level: number` also admits fractions, which no declared skill uses.
- The `PersonalInfo`, `SocialLink` and `BlogPost` records of `src/types/index.ts` are used by no modelled operation.
- These parts are outside the modelled logic:
  - the admin pages (`src/pages/Admin.tsx`, `src/pages/AdminDashboard.tsx`), which are form and navigation glue around `login`;
  - `src/App.tsx`, `src/pages/Home.tsx` and `src/components/About.tsx`, which cover routing and composition;
  - the theme toggle, whose context is not part of this model;
  - the hero's title rotation;
  - the music player's audio I/O;
  - the Express servers;
  - the Vite configuration.

=== FILE: auth.dfy ===
/**
 The admin session held by the authentication provider: one optional
 in-memory user and the persisted `adminUser` storage slot. The browser
 storage and its JSON encoding are abstracted as an `Option<AdminUser>`
 slot (the encoding is taken to round-trip), and the clock `Date.now()`
 is the `now` parameter of `Login`.
 */
module Auth {

  import opened Optional
  import opened Types
  import Strings

  /** The one credential pair the provider accepts. */
  const AdminUsername: string := "admin"
  const AdminPassword: string := "admin123"

  const TokenPrefix: string := "dummy-token-"

  /** The provider's state: the user in memory and the record in the storage slot. */
  datatype AuthState = AuthState(user: Option<AdminUser>, stored: Option<AdminUser>)

  /** What `login` hands back: the next state and the boolean the promise resolves to. */
  datatype LoginOutcome = LoginOutcome(state: AuthState, success: bool)

  /** The memory and the storage slot agree. */
  predicate InSync(s: AuthState) {
    s.user == s.stored
  }

  /**
   `isAuthenticated`: `!!user`. While memory and storage agree, it is also
   what a reload would find: a record in the slot.
   */
  predicate IsAuthenticated(s: AuthState): (b: bool)
    ensures InSync(s) ==> (b <==> s.stored.Some?)
  {
    s.user.Some?
  }

  /** The token a successful login issues at clock reading `now`. */
  function Token(now: nat): (t: string)
    ensures TokenPrefix < t
    ensures Strings.Canonical(t[|TokenPrefix|..])
    ensures Strings.ParseDecimal(t[|TokenPrefix|..]) == now
  {
    var t := TokenPrefix + Strings.NatToString(now);
    assert t[|TokenPrefix|..] == Strings.NatToString(now);
    t
  }

  /** The fixed administrator record a successful login creates. */
  function SessionUser(now: nat): AdminUser {
    AdminUser("1", "admin", "admin@portfolio.com", Some(Token(now)))
  }

  /**
   The mount effect: when the slot holds a record, adopt it as the user;
   when it is empty, leave the user as it is.
   */
  function Restore(s: AuthState): (r: AuthState)
    ensures r.stored == s.stored
    ensures s.stored.Some? ==> r.user == s.stored
    ensures s.stored.None? ==> r.user == s.user
  {
    if s.stored.Some? then s.(user := s.stored) else s
  }

  /** A freshly mounted provider: the user starts out null, then the effect restores. */
  function Mount(slot: Option<AdminUser>): (s: AuthState)
    ensures s.stored == slot
    ensures IsAuthenticated(s) <==> slot.Some?
    ensures slot.Some? ==> s.user == slot
  {
    Restore(AuthState(None, slot))
  }

  /**
   `login(username, password)`: succeeds exactly on the fixed pair; on success
   the user and the slot both become the session record; otherwise nothing
   changes.
   */
  function Login(s: AuthState, username: string, password: string, now: nat): (r: LoginOutcome)
    ensures r.success <==> username == AdminUsername && password == AdminPassword
    ensures r.success ==> r.state.user == Some(SessionUser(now))
    ensures r.success ==> r.state.stored == r.state.user
    ensures r.success ==> IsAuthenticated(r.state)
    ensures !r.success ==> r.state == s
  {
    if username == AdminUsername && password == AdminPassword then
      var u := Some(SessionUser(now));
      LoginOutcome(AuthState(u, u), true)
    else
      LoginOutcome(s, false)
  }

  /** `logout()`: the user becomes null and the slot is emptied. */
  function Logout(s: AuthState): (r: AuthState)
    ensures !IsAuthenticated(r) && r.stored.None?
  {
    AuthState(None, None)
  }

  /** Logging out twice is logging out once. */
  lemma LogoutIdempotent(s: AuthState)
    ensures Logout(Logout(s)) == Logout(s)
    ensures InSync(Logout(s))
  {
  }

  /** A login that fails leaves an unauthenticated provider unauthenticated. */
  lemma FailedLoginStaysSignedOut(s: AuthState, username: string, password: string, now: nat)
    requires !IsAuthenticated(s)
    requires username != AdminUsername || password != AdminPassword
    ensures !IsAuthenticated(Login(s, username, password, now).state)
    ensures Login(s, username, password, now).state.stored == s.stored
  {
  }

  /** Every operation keeps memory and storage in agreement once they agree. */
  lemma InSyncPreserved(s: AuthState, username: string, password: string, now: nat, slot: Option<AdminUser>)
    ensures InSync(Mount(slot))
    ensures InSync(s) ==> InSync(Login(s, username, password, now).state)
    ensures InSync(Logout(s))
    ensures InSync(s) ==> Restore(s) == s
  {
  }

  /** Reloading the page after a successful login restores the same user. */
  lemma LoginSurvivesReload(s: AuthState, now: nat)
    ensures Mount(Login(s, AdminUsername, AdminPassword, now).state.stored).user
            == Login(s, AdminUsername, AdminPassword, now).state.user
    ensures IsAuthenticated(Mount(Login(s, AdminUsername, AdminPassword, now).state.stored))
  {
  }

  /** Reloading after a logout finds nobody signed in. */
  lemma LogoutSurvivesReload(s: AuthState)
    ensures !IsAuthenticated(Mount(Logout(s).stored))
  {
  }

  /**
   Tokens issued at different clock readings differ, and tokens issued at
   the same reading coincide: the token is unique only per millisecond.
   */
  lemma {:induction false} TokenUniquePerClock(m: nat, n: nat)
    ensures Token(m) == Token(n) <==> m == n
  {
    if Token(m) == Token(n) {
      assert Token(m)[|TokenPrefix|..] == Token(n)[|TokenPrefix|..];
    }
  }
}

=== FILE: beaver_game.dfy ===
/**
 The whack-a-beaver widget: a list of beavers on a field, a score and a
 playing flag. Timers become explicit events: the first spawn and the
 clearing both happen in the effect that follows a change of the playing
 flag, each tick of the two-second interval is a `Tick`, each three-second
 auto-removal is an `Expire`, the one-second removal after a hit is a
 `HitCleared`, and the five-second respawn after a hit is a `Respawn`.
 `Math.random()` and `Date.now()` reach the model as the fields of a `Draw`.
 */
module BeaverGame {

  import opened Seqs

  /** Points awarded for one hit. */
  const HitAward: int := 10

  /** A draw of `Math.random()`: a real in [0, 1). */
  type Unit = r: real | 0.0 <= r < 1.0

  /** One beaver on the field; `x` and `y` are percentages of the field's size. */
  datatype Beaver = Beaver(id: string, x: real, y: real, isHit: bool, showTime: int)

  /**
   The widget's state. `ticking` records whether the spawn interval is
   currently registered (it is set by the effect and cleared by stop).
   */
  datatype Game = Game(beavers: seq<Beaver>, score: int, isPlaying: bool, ticking: bool)

  /** What one spawn consumes: the id it is given, two random draws and the clock. */
  datatype Draw = Draw(id: string, rx: Unit, ry: Unit, now: int)

  /** The timer firings and clicks that drive the widget. */
  datatype Event =
    | StartClicked(first: Draw)
    | StopClicked
    | Tick(draw: Draw)
    | Expire(expired: string)
    | HitCleared(cleared: string)
    | Respawn(playingAtHit: bool, draw: Draw)
    | Click(rendered: Beaver)

  /** The widget when first shown: nothing on the field, score 0, not playing. */
  const Initial: Game := Game([], 0, false, false)

  /** A beaver stays 10% away from every edge of the field. */
  predicate InField(b: Beaver) {
    10.0 <= b.x < 90.0 && 10.0 <= b.y < 90.0
  }

  /** `10 + Math.random() * 80`. */
  function Coordinate(r: Unit): (p: real)
    ensures 10.0 <= p < 90.0
  {
    10.0 + r * 80.0
  }

  /** A fresh, unhit beaver placed by the draw. */
  function NewBeaver(d: Draw): (b: Beaver)
    ensures b.id == d.id && !b.isHit && b.showTime == d.now
    ensures InField(b)
  {
    Beaver(d.id, Coordinate(d.rx), Coordinate(d.ry), false, d.now)
  }

  /** `startGame`: playing, score reset, field cleared. */
  function StartGame(g: Game): (r: Game)
    ensures r.isPlaying && r.score == 0 && r.beavers == []
    ensures r.ticking == g.ticking
  {
    g.(isPlaying := true, score := 0, beavers := [])
  }

  /** `stopGame`: not playing, interval cleared; the field is left to the effect. */
  function StopGame(g: Game): (r: Game)
    ensures !r.isPlaying && !r.ticking
    ensures r.beavers == g.beavers && r.score == g.score
  {
    g.(isPlaying := false, ticking := false)
  }

  /**
   The effect run when the playing flag becomes set: the field becomes
   exactly one fresh beaver and the interval is registered.
   */
  function StartEffect(g: Game, first: Draw): (r: Game)
    ensures r.isPlaying == g.isPlaying && r.score == g.score
    ensures r.ticking
    ensures |r.beavers| == 1 && !r.beavers[0].isHit && r.beavers[0].id == first.id
    ensures InField(r.beavers[0])
  {
    g.(beavers := [NewBeaver(first)], ticking := true)
  }

  /** The effect run when the playing flag becomes clear: the field is emptied and the interval cleared. */
  function StopEffect(g: Game): (r: Game)
    ensures r.isPlaying == g.isPlaying && r.score == g.score
    ensures !r.ticking && r.beavers == []
  {
    g.(beavers := [], ticking := false)
  }

  /** `spawnBeaver` and the interval body: append one fresh beaver. */
  function Spawn(g: Game, d: Draw): (r: Game)
    ensures |r.beavers| == |g.beavers| + 1
    ensures r.beavers[..|g.beavers|] == g.beavers
    ensures var b := r.beavers[|g.beavers|]; b.id == d.id && !b.isHit && InField(b)
    ensures r.score == g.score && r.isPlaying == g.isPlaying && r.ticking == g.ticking
  {
    g.(beavers := g.beavers + [NewBeaver(d)])
  }

  /** The filter predicate of every removal timer: keep beavers with another id. */
  function OtherId(id: string): Beaver -> bool {
    (b: Beaver) => b.id != id
  }

  /** `prev.filter(b => b.id !== id)`: the removal every timer performs. */
  function RemoveBeaver(g: Game, id: string): (r: Game)
    ensures forall b :: b in r.beavers <==> b in g.beavers && b.id != id
    ensures |r.beavers| <= |g.beavers|
    ensures r.score == g.score && r.isPlaying == g.isPlaying && r.ticking == g.ticking
  {
    g.(beavers := Filter(g.beavers, OtherId(id)))
  }

  /** `hitBeaver(id)`: mark every beaver with that id as hit and add the award. */
  function HitBeaver(g: Game, id: string): (r: Game)
    ensures |r.beavers| == |g.beavers|
    ensures forall i :: 0 <= i < |g.beavers| ==>
      r.beavers[i].isHit == (g.beavers[i].isHit || g.beavers[i].id == id)
    ensures forall i :: 0 <= i < |g.beavers| ==>
      r.beavers[i].(isHit := g.beavers[i].isHit) == g.beavers[i]
    ensures r.score == g.score + HitAward
    ensures r.isPlaying == g.isPlaying && r.ticking == g.ticking
  {
    var bs := seq(|g.beavers|, i requires 0 <= i < |g.beavers| =>
      if g.beavers[i].id == id then g.beavers[i].(isHit := true) else g.beavers[i]);
    g.(beavers := bs, score := g.score + HitAward)
  }

  /**
   The click handler `!beaver.isHit && hitBeaver(beaver.id)`. It closes
   over `rendered`, the beaver as the last render showed it, which a timer
   may have removed from the field since: such a click still scores.
   */
  function ClickBeaver(g: Game, rendered: Beaver): (r: Game)
    ensures rendered.isHit ==> r == g
    ensures !rendered.isHit ==> r.score == g.score + HitAward && |r.beavers| == |g.beavers|
    ensures !rendered.isHit ==> forall i :: 0 <= i < |g.beavers| ==>
      r.beavers[i].isHit == (g.beavers[i].isHit || g.beavers[i].id == rendered.id)
    ensures r.isPlaying == g.isPlaying && r.ticking == g.ticking
  {
    if !rendered.isHit then HitBeaver(g, rendered.id) else g
  }

  /**
   One event. A start or stop click that changes the playing flag is
   followed by the effect; a tick spawns only while the interval is
   registered; a respawn spawns when the flag the hit handler saw was set.
   */
  function Step(g: Game, e: Event): (r: Game)
    ensures r.isPlaying == (e.StartClicked? || (g.isPlaying && !e.StopClicked?))
    ensures e.StopClicked? ==> !r.ticking
    ensures e.StartClicked? && !g.isPlaying ==> r.ticking
    ensures !e.StopClicked? && !(e.StartClicked? && !g.isPlaying) ==> r.ticking == g.ticking
    ensures (e.Tick? && !g.ticking) || (e.Respawn? && !e.playingAtHit) ==> r == g
    ensures e.Expire? || e.HitCleared? || e.Click? ==> r.isPlaying == g.isPlaying
  {
    match e
    case StartClicked(first) =>
      var g1 := StartGame(g);
      if g.isPlaying then g1 else StartEffect(g1, first)
    case StopClicked =>
      var g1 := StopGame(g);
      if g.isPlaying then StopEffect(g1) else g1
    case Tick(d) => if g.ticking then Spawn(g, d) else g
    case Expire(id) => RemoveBeaver(g, id)
    case HitCleared(id) => RemoveBeaver(g, id)
    case Respawn(playingAtHit, d) => if playingAtHit then Spawn(g, d) else g
    case Click(rendered) => ClickBeaver(g, rendered)
  }

  /** A sequence of events applied in order; any such run keeps a valid state valid. */
  function Run(g: Game, events: seq<Event>): (r: Game)
    ensures Valid(g) ==> Valid(r)
    decreases |events|
  {
    if |events| == 0 then g
    else
      if Valid(g) then StepValid(g, events[0]); Run(Step(g, events[0]), events[1..])
      else Run(Step(g, events[0]), events[1..])
  }

  /** Running two batches of events one after the other is running them together. */
  lemma {:induction false} RunConcat(g: Game, a: seq<Event>, b: seq<Event>)
    ensures Run(g, a + b) == Run(Run(g, a), b)
    decreases |a|
  {
    if |a| > 0 {
      assert (a + b)[0] == a[0];
      assert (a + b)[1..] == a[1..] + b;
      RunConcat(Step(g, a[0]), a[1..], b);
    } else {
      assert a + b == b;
    }
  }

  /**
   What every reachable state satisfies: the score is a non-negative
   multiple of the award, every beaver is inside the field, and the
   interval is registered only while playing.
   */
  predicate Valid(g: Game) {
    && g.score >= 0
    && g.score % HitAward == 0
    && (forall i :: 0 <= i < |g.beavers| ==> InField(g.beavers[i]))
    && (g.ticking ==> g.isPlaying)
  }

  /** Starting a stopped game leaves exactly one unhit beaver, score 0, and the interval running. */
  lemma StartLeavesOneBeaver(g: Game, first: Draw)
    requires !g.isPlaying
    ensures var r := Step(g, StartClicked(first));
      r.isPlaying && r.ticking && r.score == 0
      && |r.beavers| == 1 && !r.beavers[0].isHit && InField(r.beavers[0])
  {
  }

  /** After a start and one interval tick with no hit, two beavers are on the field. */
  lemma StartThenTick(g: Game, first: Draw, next: Draw)
    requires !g.isPlaying
    ensures |Step(Step(g, StartClicked(first)), Tick(next)).beavers| == 2
  {
  }

  /** Stopping a running game empties the field, and later ticks add nothing. */
  lemma StopClears(g: Game, d: Draw)
    requires g.isPlaying
    ensures Step(g, StopClicked).beavers == []
    ensures Step(Step(g, StopClicked), Tick(d)) == Step(g, StopClicked)
  {
  }

  /** Only a start and a scoring click move the score, by a reset to 0 and by exactly 10. */
  lemma ScoreBookkeeping(g: Game, e: Event)
    ensures Step(g, e).score ==
      if e.StartClicked? then 0
      else if e.Click? && !e.rendered.isHit then g.score + HitAward
      else g.score
  {
  }

  /**
   The respawn tests the playing flag the hit handler saw, not the current
   one: a hit shortly before a stop still puts a beaver on the stopped field.
   */
  lemma RespawnAfterStop(g: Game, d: Draw)
    requires g.isPlaying
    ensures var r := Step(Step(g, StopClicked), Respawn(true, d));
      !r.isPlaying && r.beavers == [NewBeaver(d)]
  {
  }

  /** Clicking a beaver that was rendered as hit changes neither the field nor the score. */
  lemma ClickOnHitIsNoOp(g: Game, rendered: Beaver)
    requires rendered.isHit
    ensures Step(g, Click(rendered)) == g
  {
  }

  /** A click on an unhit beaver the field still shows marks it hit and adds 10. */
  lemma ClickOnCurrent(g: Game, index: nat)
    requires index < |g.beavers| && !g.beavers[index].isHit
    ensures var r := Step(g, Click(g.beavers[index]));
      |r.beavers| == |g.beavers| && r.beavers[index].isHit && r.score == g.score + HitAward
  {
  }

  /**
   A click on a beaver a timer has removed since the last render leaves the
   field alone but still adds 10: `hitBeaver` adds the award unconditionally.
   */
  lemma StaleClickScores(g: Game, rendered: Beaver)
    requires !rendered.isHit
    requires forall i :: 0 <= i < |g.beavers| ==> g.beavers[i].id != rendered.id
    ensures Step(g, Click(rendered)) == g.(score := g.score + HitAward)
  {
  }

  /** Removing by id twice is removing once. */
  lemma RemoveIdempotent(g: Game, id: string)
    ensures RemoveBeaver(RemoveBeaver(g, id), id) == RemoveBeaver(g, id)
  {
    FilterIdempotent(g.beavers, OtherId(id));
  }

  /** Removing an id no beaver carries changes nothing. */
  lemma RemoveAbsentIsNoOp(g: Game, id: string)
    requires forall i :: 0 <= i < |g.beavers| ==> g.beavers[i].id != id
    ensures RemoveBeaver(g, id) == g
  {
    FilterKeepsAll(g.beavers, OtherId(id));
  }

  /** Removal keeps every other beaver as many times as it was there, and in order. */
  lemma RemoveKeepsOthersInOrder(g: Game, id: string, front: seq<Beaver>, back: seq<Beaver>)
    requires g.beavers == front + back
    ensures RemoveBeaver(g, id).beavers ==
      RemoveBeaver(g.(beavers := front), id).beavers + RemoveBeaver(g.(beavers := back), id).beavers
    ensures forall b: Beaver :: b.id != id ==> multiset(RemoveBeaver(g, id).beavers)[b] == multiset(g.beavers)[b]
  {
    FilterConcat(front, back, OtherId(id));
    FilterCount(g.beavers, OtherId(id));
  }

  /** Expiry and post-hit removal of two ids may fire in either order. */
  lemma RemovalsCommute(g: Game, a: string, b: string)
    ensures RemoveBeaver(RemoveBeaver(g, a), b) == RemoveBeaver(RemoveBeaver(g, b), a)
  {
    FilterCommutes(g.beavers, OtherId(a), OtherId(b));
  }

  /** A removal keeps a valid state valid: what is left was already on the field. */
  lemma RemoveValid(g: Game, id: string)
    requires Valid(g)
    ensures Valid(RemoveBeaver(g, id))
  {
    var r := RemoveBeaver(g, id);
    forall i | 0 <= i < |r.beavers|
      ensures InField(r.beavers[i])
    {
      assert r.beavers[i] in g.beavers;
    }
  }

  /** A spawn keeps a valid state valid: the new beaver is placed inside the field. */
  lemma SpawnValid(g: Game, d: Draw)
    requires Valid(g)
    ensures Valid(Spawn(g, d))
  {
    var r := Spawn(g, d);
    assert forall i :: 0 <= i < |g.beavers| ==> r.beavers[i] == r.beavers[..|g.beavers|][i];
  }

  /** A click keeps a valid state valid: a hit moves no beaver and adds exactly the award. */
  lemma ClickValid(g: Game, rendered: Beaver)
    requires Valid(g)
    ensures Valid(ClickBeaver(g, rendered))
  {
    if !rendered.isHit {
      var r := ClickBeaver(g, rendered);
      forall i | 0 <= i < |r.beavers|
        ensures InField(r.beavers[i])
      {
        assert r.beavers[i].(isHit := g.beavers[i].isHit) == g.beavers[i];
      }
    }
  }

  /** Every event keeps a valid state valid. */
  lemma StepValid(g: Game, e: Event)
    requires Valid(g)
    ensures Valid(Step(g, e))
  {
    match e
    case Expire(id) => RemoveValid(g, id);
    case HitCleared(id) => RemoveValid(g, id);
    case Tick(d) => SpawnValid(g, d);
    case Respawn(_, d) => SpawnValid(g, d);
    case Click(rendered) => ClickValid(g, rendered);
    case StartClicked(_) =>
    case StopClicked =>
  }

  /** In particular, any run from the initial widget keeps the score a non-negative multiple of 10. */
  lemma ReachableScore(events: seq<Event>)
    ensures Run(Initial, events).score >= 0
    ensures Run(Initial, events).score % HitAward == 0
  {
  }
}

=== FILE: contact.dfy ===
/**
 The contact form: four text fields, a change handler that writes the
 input's value into the field named by the input, and a submit handler
 that clears the form. The submission itself only logs and alerts.
 */
module Contact {

  /** The four inputs, named after the fields they edit. */
  datatype Field = Name | Email | Subject | Message

  datatype Form = Form(name: string, email: string, subject: string, message: string)

  /** The form when the section mounts and after every submit: all fields empty. */
  const EmptyForm: Form := Form("", "", "", "")

  /** The current text of one field. */
  function Get(f: Form, k: Field): string {
    match k
    case Name => f.name
    case Email => f.email
    case Subject => f.subject
    case Message => f.message
  }

  /** Two forms with the same text in every field are the same form. */
  lemma FormExtensional(f: Form, g: Form)
    requires forall k :: Get(f, k) == Get(g, k)
    ensures f == g
  {
    assert Get(f, Name) == Get(g, Name);
    assert Get(f, Email) == Get(g, Email);
    assert Get(f, Subject) == Get(g, Subject);
    assert Get(f, Message) == Get(g, Message);
  }

  /** `handleChange`: `{ ...formData, [name]: value }`. */
  function HandleChange(f: Form, k: Field, value: string): (r: Form)
    ensures Get(r, k) == value
    ensures forall other :: other != k ==> Get(r, other) == Get(f, other)
  {
    match k
    case Name => f.(name := value)
    case Email => f.(email := value)
    case Subject => f.(subject := value)
    case Message => f.(message := value)
  }

  /** `handleSubmit`: every field is cleared, whatever was typed. */
  function HandleSubmit(f: Form): (r: Form)
    ensures forall k :: Get(r, k) == ""
  {
    EmptyForm
  }

  /** The initial form is empty in every field. */
  lemma InitialIsEmpty()
    ensures forall k :: Get(EmptyForm, k) == ""
  {
  }

  /** Typing into the same field twice keeps the last value only. */
  lemma LastChangeWins(f: Form, k: Field, a: string, b: string)
    ensures HandleChange(HandleChange(f, k, a), k, b) == HandleChange(f, k, b)
  {
    FormExtensional(HandleChange(HandleChange(f, k, a), k, b), HandleChange(f, k, b));
  }

  /** Changes to two different fields may arrive in either order. */
  lemma ChangesCommute(f: Form, j: Field, k: Field, a: string, b: string)
    requires j != k
    ensures HandleChange(HandleChange(f, j, a), k, b) == HandleChange(HandleChange(f, k, b), j, a)
  {
    FormExtensional(HandleChange(HandleChange(f, j, a), k, b), HandleChange(HandleChange(f, k, b), j, a));
  }

  /** Writing a field's current text back changes nothing. */
  lemma ChangeToSameValue(f: Form, k: Field)
    ensures HandleChange(f, k, Get(f, k)) == f
  {
    FormExtensional(HandleChange(f, k, Get(f, k)), f);
  }
}

=== FILE: gallery.dfy ===
/**
 The gallery section: the list filtered by the selected category, the
 image a card shows, its first three tags, its type badge, and the empty
 state shown when nothing matches.
 */
module Gallery {

  import opened Optional
  import opened Types
  import opened Seqs

  /** The category id that shows every item. */
  const All: string := "all"

  /** At most this many tags are shown on a card. */
  const ShownTags: nat := 3

  /** The two badge texts. */
  const ImageBadge: string := "\U{1F5BC}\U{FE0F} Image"
  const DocumentBadge: string := "\U{1F4C4} Document"

  /** The filter predicate: `item.category === selected`. */
  function InCategory(selected: string): GalleryItem -> bool {
    (item: GalleryItem) => item.category == selected
  }

  /** `filteredItems`: everything for "all", otherwise the items of the selected category. */
  function FilteredItems(items: seq<GalleryItem>, selected: string): (r: seq<GalleryItem>)
    ensures selected == All ==> r == items
    ensures selected != All ==> forall it :: it in r <==> it in items && it.category == selected
    ensures selected != All ==>
      forall it :: multiset(r)[it] == if it.category == selected then multiset(items)[it] else 0
  {
    if selected == All then items
    else
      FilterCount(items, InCategory(selected));
      Filter(items, InCategory(selected))
  }

  /** The filtered list keeps the items' original order. */
  lemma FilteredKeepsOrder(front: seq<GalleryItem>, back: seq<GalleryItem>, selected: string)
    ensures FilteredItems(front + back, selected)
      == FilteredItems(front, selected) + FilteredItems(back, selected)
  {
    if selected != All {
      FilterConcat(front, back, InCategory(selected));
    }
  }

  /**
   The "No items found" block is rendered exactly when the filtered list is
   empty: for "all" only when there are no items, and for a category only
   when no item carries it.
   */
  predicate ShowsEmptyState(items: seq<GalleryItem>, selected: string): (b: bool)
    ensures selected == All ==> (b <==> items == [])
    ensures selected != All ==>
      (b <==> forall i :: 0 <= i < |items| ==> items[i].category != selected)
  {
    var r := FilteredItems(items, selected);
    assert selected != All && |r| > 0 ==> r[0] in r;
    |r| == 0
  }

  /** `item.thumbnail || item.url`: the thumbnail when present and non-empty, else the full url. */
  function CardImage(item: GalleryItem): (r: string)
    ensures item.thumbnail.Some? && item.thumbnail.value != "" ==> r == item.thumbnail.value
    ensures item.thumbnail.None? || item.thumbnail.value == "" ==> r == item.url
    ensures r == "" ==> item.url == ""
  {
    match item.thumbnail
    case Some(t) => if t != "" then t else item.url
    case None => item.url
  }

  /** `item.tags?.slice(0, 3)`: at most the first three tags; none when the item has no tag list. */
  function VisibleTags(item: GalleryItem): (r: seq<string>)
    ensures |r| <= ShownTags
    ensures item.tags.None? ==> r == []
    ensures item.tags.Some? ==> r <= item.tags.value
    ensures item.tags.Some? && |item.tags.value| >= ShownTags ==> |r| == ShownTags
    ensures item.tags.Some? && |item.tags.value| < ShownTags ==> r == item.tags.value
  {
    match item.tags
    case Some(tags) => Take(tags, ShownTags)
    case None => []
  }

  /** `item.type === 'image' ? 'Image' : 'Document'`. */
  function TypeBadge(item: GalleryItem): (r: string)
    ensures r == ImageBadge <==> item.kind == Image
    ensures r == DocumentBadge <==> item.kind == Document
  {
    assert |ImageBadge| != |DocumentBadge|;
    match item.kind
    case Image => ImageBadge
    case Document => DocumentBadge
  }

  /** Filtering the filtered list by the same category changes nothing. */
  lemma FilterIdempotentByCategory(items: seq<GalleryItem>, selected: string)
    ensures FilteredItems(FilteredItems(items, selected), selected) == FilteredItems(items, selected)
  {
    if selected != All {
      FilterIdempotent(items, InCategory(selected));
    }
  }
}

=== FILE: projects.dfy ===
/**
 The projects section: the technology filter buttons ("all" followed by
 every technology once), the filtered project list, the first three
 technology badges of a card with a "+n more" label, and the year shown
 on a card.
 */
module Projects {

  import opened Optional
  import opened Types
  import opened Seqs
  import opened Strings

  /** The filter value that shows every project. */
  const All: string := "all"

  /** At most this many filter buttons are rendered. */
  const MaxButtons: nat := 8

  /** At most this many technology badges are shown on a card. */
  const ShownTechnologies: nat := 3

  /** `projects.flatMap(p => p.technologies)`. */
  function Technologies(projects: seq<Project>): (r: seq<string>)
    ensures forall t :: t in r <==> exists i :: 0 <= i < |projects| && t in projects[i].technologies
  {
    FlatMap(projects, (p: Project) => p.technologies)
  }

  /**
   `['all', ...new Set(technologies)]`: "all", then every technology of every
   project exactly once, in the order it first appears.
   */
  function Categories(projects: seq<Project>): (r: seq<string>)
    ensures |r| >= 1 && r[0] == All
    ensures forall t :: t in r[1..] <==> t in Technologies(projects)
    ensures forall t :: t in r[1..] <==> exists i :: 0 <= i < |projects| && t in projects[i].technologies
    ensures Distinct(r[1..])
    ensures forall i, j :: 0 <= i < j < |r| - 1 ==>
      IndexOf(Technologies(projects), r[1..][i]) < IndexOf(Technologies(projects), r[1..][j])
  {
    var d := Dedup(Technologies(projects));
    DedupOrder(Technologies(projects));
    var r := [All] + d;
    assert r[1..] == d;
    r
  }

  /** The buttons actually rendered: `categories.slice(0, 8)`. */
  function FilterButtons(projects: seq<Project>): (r: seq<string>)
    ensures 1 <= |r| <= MaxButtons
    ensures r[0] == All
    ensures r <= Categories(projects)
    ensures |Categories(projects)| <= MaxButtons ==> r == Categories(projects)
    ensures |Categories(projects)| > MaxButtons ==> |r| == MaxButtons
  {
    Take(Categories(projects), MaxButtons)
  }

  /** The filter predicate: `p.technologies.includes(filter)`. */
  function Uses(filter: string): Project -> bool {
    (p: Project) => filter in p.technologies
  }

  /** `filteredProjects`: everything for "all", otherwise the projects using the technology. */
  function FilteredProjects(projects: seq<Project>, filter: string): (r: seq<Project>)
    ensures filter == All ==> r == projects
    ensures filter != All ==> forall p :: p in r <==> p in projects && filter in p.technologies
    ensures filter != All ==> forall p :: multiset(r)[p] == if filter in p.technologies then multiset(projects)[p] else 0
  {
    if filter == All then projects
    else
      FilterCount(projects, Uses(filter));
      Filter(projects, Uses(filter))
  }

  /** The filtered list keeps the relative order of the projects. */
  lemma FilteredKeepsOrder(front: seq<Project>, back: seq<Project>, filter: string)
    ensures FilteredProjects(front + back, filter)
      == FilteredProjects(front, filter) + FilteredProjects(back, filter)
  {
    if filter != All {
      FilterConcat(front, back, Uses(filter));
    }
  }

  /**
   Every technology button selects at least one project, even a technology
   that happens to be called "all".
   */
  lemma EveryButtonSelectsSomething(projects: seq<Project>, k: nat)
    requires 1 <= k < |Categories(projects)|
    ensures |FilteredProjects(projects, Categories(projects)[k])| > 0
  {
    var c := Categories(projects);
    assert c[k] == c[1..][k - 1];
    assert c[k] in c[1..];
    var i :| 0 <= i < |projects| && c[k] in projects[i].technologies;
    assert projects[i] in FilteredProjects(projects, c[k]);
  }

  /** What a card shows of its technologies. */
  datatype Badges = Badges(shown: seq<string>, more: Option<string>)

  /** `technologies.slice(0, 3)`, then `+{n - 3} more` when there are more than three. */
  function TechBadges(p: Project): (r: Badges)
    ensures |r.shown| == if |p.technologies| < ShownTechnologies then |p.technologies| else ShownTechnologies
    ensures r.shown <= p.technologies
    ensures r.more.Some? <==> |p.technologies| > ShownTechnologies
    ensures r.more.Some? ==>
      r.more.value == "+" + NatToString(|p.technologies| - ShownTechnologies) + " more"
  {
    var n := |p.technologies|;
    Badges(
      Take(p.technologies, ShownTechnologies),
      if n > ShownTechnologies then Some("+" + NatToString(n - ShownTechnologies) + " more") else None)
  }

  /** The number in the "+n more" label counts exactly the technologies not shown as badges. */
  lemma BadgesAccountForAll(p: Project)
    ensures TechBadges(p).more.Some? ==>
      ParseDecimal(TechBadges(p).more.value[1..|TechBadges(p).more.value| - 5])
        == |p.technologies| - |TechBadges(p).shown|
  {
    var b := TechBadges(p);
    if b.more.Some? {
      var digits := NatToString(|p.technologies| - ShownTechnologies);
      assert b.more.value[1..|b.more.value| - 5] == digits;
    }
  }

  /** `startDate.split('-')[0]`: the text before the first dash. */
  function DisplayYear(p: Project): (r: string)
    ensures r <= p.startDate && '-' !in r
    ensures |r| < |p.startDate| ==> p.startDate[|r|] == '-'
  {
    Split(p.startDate, '-')[0]
  }

  /** For a `year-month` start date the card shows the year. */
  lemma DisplayYearOfYearMonth(p: Project, year: string, month: string)
    requires '-' !in year
    requires p.startDate == year + "-" + month
    ensures DisplayYear(p) == year
  {
    var rest := "-" + month;
    assert p.startDate == year + rest;
    assert Split(rest, '-')[0] == "";
    SplitPrefix(year, rest, '-');
    assert year + "" == year;
  }
}

=== FILE: seqs.dfy ===
/**
 The array operations the components lean on — `filter`, `slice(0, n)`,
 `flatMap` and de-duplication through `new Set(...)` — as functions on
 sequences, with the properties the components rely on.
 */
module Seqs {

  /** `s.filter(p)`: the elements satisfying `p`, in their original order. */
  function Filter<T(!new)>(s: seq<T>, p: T -> bool): (r: seq<T>)
    ensures |r| <= |s|
    ensures forall x :: x in r <==> x in s && p(x)
  {
    if |s| == 0 then []
    else
      assert s == [s[0]] + s[1..];
      (if p(s[0]) then [s[0]] else []) + Filter(s[1..], p)
  }

  /** `Filter` keeps every kept element as many times as it occurs, and drops the rest entirely. */
  lemma {:induction false} FilterCount<T(!new)>(s: seq<T>, p: T -> bool)
    ensures forall x :: multiset(Filter(s, p))[x] == if p(x) then multiset(s)[x] else 0
  {
    if |s| > 0 {
      FilterCount(s[1..], p);
      assert s == [s[0]] + s[1..];
    }
  }

  /** Filtering distributes over concatenation, which is what "in original order" means. */
  lemma {:induction false} FilterConcat<T(!new)>(a: seq<T>, b: seq<T>, p: T -> bool)
    ensures Filter(a + b, p) == Filter(a, p) + Filter(b, p)
  {
    if |a| == 0 {
      assert a + b == b;
    } else {
      assert (a + b)[1..] == a[1..] + b;
      FilterConcat(a[1..], b, p);
    }
  }

  /** A filter that rejects nothing returns its input unchanged. */
  lemma {:induction false} FilterKeepsAll<T(!new)>(s: seq<T>, p: T -> bool)
    requires forall i :: 0 <= i < |s| ==> p(s[i])
    ensures Filter(s, p) == s
  {
    if |s| > 0 {
      FilterKeepsAll(s[1..], p);
    }
  }

  /** Filtering twice by the same predicate is filtering once. */
  lemma FilterIdempotent<T(!new)>(s: seq<T>, p: T -> bool)
    ensures Filter(Filter(s, p), p) == Filter(s, p)
  {
    var r := Filter(s, p);
    assert forall i :: 0 <= i < |r| ==> r[i] in r;
    FilterKeepsAll(r, p);
  }

  /** Filtering by two predicates in either order gives the same sequence. */
  lemma {:induction false} FilterCommutes<T(!new)>(s: seq<T>, p: T -> bool, q: T -> bool)
    ensures Filter(Filter(s, p), q) == Filter(Filter(s, q), p)
  {
    if |s| > 0 {
      FilterCommutes(s[1..], p, q);
      var h := s[0];
      FilterConcat(if p(h) then [h] else [], Filter(s[1..], p), q);
      FilterConcat(if q(h) then [h] else [], Filter(s[1..], q), p);
    }
  }

  /** `s.slice(0, n)`: the first `n` elements, or all of them when there are fewer. */
  function Take<T>(s: seq<T>, n: nat): (r: seq<T>)
    ensures |r| == if n < |s| then n else |s|
    ensures r <= s
  {
    if n < |s| then s[..n] else s
  }

  /** `s.flatMap(f)`: the images of the elements, concatenated in order. */
  function FlatMap<T, U>(s: seq<T>, f: T -> seq<U>): (r: seq<U>)
    ensures forall i, y :: 0 <= i < |s| && y in f(s[i]) ==> y in r
    ensures forall y :: y in r ==> exists i :: 0 <= i < |s| && y in f(s[i])
  {
    if |s| == 0 then []
    else
      var rest := FlatMap(s[1..], f);
      assert forall i :: 1 <= i < |s| ==> s[i] == s[1..][i - 1];
      f(s[0]) + rest
  }

  /** `flatMap` distributes over concatenation: the images stay in the order of their elements. */
  lemma {:induction false} FlatMapConcat<T, U>(a: seq<T>, b: seq<T>, f: T -> seq<U>)
    ensures FlatMap(a + b, f) == FlatMap(a, f) + FlatMap(b, f)
  {
    if |a| == 0 {
      assert a + b == b;
    } else {
      assert (a + b)[0] == a[0];
      assert (a + b)[1..] == a[1..] + b;
      FlatMapConcat(a[1..], b, f);
    }
  }

  /** The `flatMap` of one element is its image, every element of it kept, in order. */
  lemma FlatMapSingle<T, U>(x: T, f: T -> seq<U>)
    ensures FlatMap([x], f) == f(x)
  {
    assert [x][1..] == [];
  }

  /** Index of the first occurrence of `x` in `s`. */
  function IndexOf<T(==)>(s: seq<T>, x: T): (k: nat)
    requires x in s
    ensures k < |s| && s[k] == x && x !in s[..k]
  {
    if s[0] == x then 0 else 1 + IndexOf(s[1..], x)
  }

  /** The first occurrence of `x` in `s` is also its first occurrence in any prefix holding it. */
  lemma {:induction false} IndexOfPrefix<T>(s: seq<T>, n: nat, x: T)
    requires n <= |s| && x in s[..n]
    ensures IndexOf(s, x) == IndexOf(s[..n], x)
  {
    if s[0] != x {
      assert s[1..][..n - 1] == s[..n][1..];
      IndexOfPrefix(s[1..], n - 1, x);
    }
  }

  /** No element occurs twice. */
  predicate Distinct<T(==)>(s: seq<T>) {
    forall i, j :: 0 <= i < j < |s| ==> s[i] != s[j]
  }

  /**
   `[...new Set(s)]`: one copy of each element, in the order of first occurrence.
   A JavaScript Set keeps insertion order and ignores re-insertions, so each
   element is appended the first time it is met.
   */
  function Dedup<T(==,!new)>(s: seq<T>): (r: seq<T>)
    ensures forall x :: x in r <==> x in s
    ensures Distinct(r)
  {
    if |s| == 0 then []
    else
      var d := Dedup(s[..|s| - 1]);
      if s[|s| - 1] in d then d else d + [s[|s| - 1]]
  }

  /** `Dedup` lists the elements in the order of their first occurrence. */
  lemma {:induction false} DedupOrder<T(!new)>(s: seq<T>)
    ensures forall i, j :: 0 <= i < j < |Dedup(s)| ==> IndexOf(s, Dedup(s)[i]) < IndexOf(s, Dedup(s)[j])
  {
    if |s| > 0 {
      var init := s[..|s| - 1];
      var d := Dedup(init);
      var x := s[|s| - 1];
      DedupOrder(init);
      assert s == init + [x];
      forall y | y in d
        ensures IndexOf(s, y) == IndexOf(init, y) < |s| - 1
      {
        IndexOfPrefix(s, |s| - 1, y);
      }
      if x !in d {
        assert IndexOf(s, x) == |s| - 1;
      }
    }
  }

  /** Appending one element to the input of `Dedup`. */
  lemma DedupSnoc<T(!new)>(s: seq<T>, x: T)
    ensures Dedup(s + [x]) == if x in s then Dedup(s) else Dedup(s) + [x]
  {
    assert (s + [x])[..|s + [x]| - 1] == s;
  }

  /** Appending elements already seen leaves the de-duplication unchanged. */
  lemma {:induction false} DedupAppendSeen<T(!new)>(s: seq<T>, t: seq<T>)
    requires forall i :: 0 <= i < |t| ==> t[i] in s
    ensures Dedup(s + t) == Dedup(s)
  {
    if |t| > 0 {
      var init := t[..|t| - 1];
      var x := t[|t| - 1];
      DedupAppendSeen(s, init);
      assert s + t == (s + init) + [x];
      assert x in s + init;
      DedupSnoc(s + init, x);
    } else {
      assert s + t == s;
    }
  }
}

=== FILE: skills.dfy ===
/**
 The skills section: the declared skill list and its grouping by category
 with `reduce`, which pushes each skill onto the array under its category
 key and creates that array the first time the key is met. A JavaScript
 object lists such keys in insertion order, so the groups come out in the
 order their categories first occur.
 */
module Skills {

  import opened Optional
  import opened Types
  import opened Seqs

  /** One entry of the grouped record: a category key and its array. */
  datatype Group = Group(category: SkillCategory, skills: seq<Skill>)

  /** The category of every skill, in order. */
  function CategoriesOf(skills: seq<Skill>): (r: seq<SkillCategory>)
    ensures |r| == |skills|
    ensures forall i :: 0 <= i < |skills| ==> r[i] == skills[i].category
  {
    seq(|skills|, i requires 0 <= i < |skills| => skills[i].category)
  }

  /** The keys of the grouped record, in order. */
  function Keys(groups: seq<Group>): (r: seq<SkillCategory>)
    ensures |r| == |groups|
    ensures forall i :: 0 <= i < |groups| ==> r[i] == groups[i].category
  {
    seq(|groups|, i requires 0 <= i < |groups| => groups[i].category)
  }

  /** The skills of one category, in their original order. */
  function OfCategory(c: SkillCategory): Skill -> bool {
    (s: Skill) => s.category == c
  }

  /** Position of the group for `c`, or `|groups|` when there is none yet (`!acc[c]`). */
  function GroupIndex(groups: seq<Group>, c: SkillCategory): (k: nat)
    ensures k <= |groups|
    ensures k < |groups| ==> groups[k].category == c
    ensures forall j :: 0 <= j < k ==> groups[j].category != c
  {
    if |groups| == 0 then 0
    else if groups[0].category == c then 0
    else 1 + GroupIndex(groups[1..], c)
  }

  /** The reducer: create the category's array if missing, then push the skill onto it. */
  function AddSkill(groups: seq<Group>, s: Skill): (r: seq<Group>)
    ensures s.category in Keys(groups) ==> Keys(r) == Keys(groups)
    ensures s.category !in Keys(groups) ==> Keys(r) == Keys(groups) + [s.category]
    ensures TotalSize(r) == TotalSize(groups) + 1
  {
    var k := GroupIndex(groups, s.category);
    if k < |groups| then
      var g := Group(s.category, groups[k].skills + [s]);
      assert Keys(groups)[k] == s.category;
      KeysUpdate(groups, k, g);
      TotalSizeUpdate(groups, k, g);
      groups[k := g]
    else
      var g := Group(s.category, [s]);
      assert Keys(groups + [g]) == Keys(groups) + [s.category];
      TotalSizeAppend(groups, g);
      groups + [g]
  }

  /** `skills.reduce(AddSkill, {})`: every skill lands in exactly one group, so the sizes add up. */
  function GroupedSkills(skills: seq<Skill>): (r: seq<Group>)
    ensures |r| <= |skills|
    ensures TotalSize(r) == |skills|
  {
    if |skills| == 0 then []
    else AddSkill(GroupedSkills(skills[..|skills| - 1]), skills[|skills| - 1])
  }

  /**
   The grouping, stated without the reducer: the keys are the categories
   in order of first occurrence, and each group holds exactly the skills of
   its category in their original order.
   */
  ghost predicate GroupsOf(skills: seq<Skill>, groups: seq<Group>) {
    && Keys(groups) == Dedup(CategoriesOf(skills))
    && forall k :: 0 <= k < |groups| ==> GroupHolds(skills, groups[k])
  }

  /** A group holds exactly the skills of its category, in their original order. */
  ghost predicate GroupHolds(skills: seq<Skill>, g: Group) {
    g.skills == Filter(skills, OfCategory(g.category))
  }

  /** A category that no skill has selects nothing. */
  lemma {:induction false} FilterAbsentCategory(skills: seq<Skill>, c: SkillCategory)
    requires c !in CategoriesOf(skills)
    ensures Filter(skills, OfCategory(c)) == []
  {
    if |skills| > 0 {
      assert CategoriesOf(skills)[0] == skills[0].category;
      assert CategoriesOf(skills[1..]) == CategoriesOf(skills)[1..];
      FilterAbsentCategory(skills[1..], c);
    }
  }

  /** Pushing a skill onto the group of its category keeps that group exact; other groups stay exact untouched. */
  lemma {:induction false} GroupHoldsSnoc(init: seq<Skill>, s: Skill, g: Group)
    requires GroupHolds(init, g)
    ensures g.category == s.category ==> GroupHolds(init + [s], Group(g.category, g.skills + [s]))
    ensures g.category != s.category ==> GroupHolds(init + [s], g)
  {
    FilterConcat(init, [s], OfCategory(g.category));
    assert Filter([s], OfCategory(g.category)) == if s.category == g.category then [s] else [];
  }

  /** Replacing a group by one with the same category leaves the keys alone. */
  lemma {:induction false} KeysUpdate(groups: seq<Group>, k: nat, g: Group)
    requires k < |groups| && g.category == groups[k].category
    ensures Keys(groups[k := g]) == Keys(groups)
  {
  }

  /** Pushing a skill onto the one group of its category keeps every group exact. */
  lemma {:induction false} PushKeepsGroups(init: seq<Skill>, s: Skill, groups: seq<Group>, k: nat, r: seq<Group>)
    requires forall j :: 0 <= j < |groups| ==> GroupHolds(init, groups[j])
    requires k < |groups| && groups[k].category == s.category
    requires Distinct(Keys(groups))
    requires r == groups[k := Group(s.category, groups[k].skills + [s])]
    ensures forall j :: 0 <= j < |r| ==> GroupHolds(init + [s], r[j])
  {
    forall j | 0 <= j < |r|
      ensures GroupHolds(init + [s], r[j])
    {
      GroupHoldsSnoc(init, s, groups[j]);
      if j != k {
        assert Keys(groups)[j] != Keys(groups)[k];
      }
    }
  }

  /** Pushing onto an existing group keeps the keys, which already hold the category. */
  lemma {:induction false} ExistingKeys(cats: seq<SkillCategory>, groups: seq<Group>, k: nat, g: Group)
    requires Keys(groups) == Dedup(cats)
    requires k < |groups| && g.category == groups[k].category
    ensures Keys(groups[k := g]) == Dedup(cats + [g.category])
  {
    assert Keys(groups)[k] == g.category;
    assert g.category in cats;
    DedupSnoc(cats, g.category);
    KeysUpdate(groups, k, g);
  }

  /** The reducer step when the category already has a group. */
  lemma {:induction false} AddToExisting(init: seq<Skill>, s: Skill, groups: seq<Group>)
    requires GroupsOf(init, groups)
    requires GroupIndex(groups, s.category) < |groups|
    ensures GroupsOf(init + [s], AddSkill(groups, s))
  {
    var k := GroupIndex(groups, s.category);
    var g := Group(s.category, groups[k].skills + [s]);
    var r := groups[k := g];
    assert Keys(r) == Dedup(CategoriesOf(init + [s])) by {
      assert CategoriesOf(init + [s]) == CategoriesOf(init) + [s.category];
      ExistingKeys(CategoriesOf(init), groups, k, g);
    }
    assert forall j :: 0 <= j < |r| ==> GroupHolds(init + [s], r[j]) by {
      PushKeepsGroups(init, s, groups, k, r);
    }
    assert AddSkill(groups, s) == r;
  }

  /** The reducer step when the category is met for the first time. */
  lemma {:induction false} AddNew(init: seq<Skill>, s: Skill, groups: seq<Group>)
    requires GroupsOf(init, groups)
    requires GroupIndex(groups, s.category) == |groups|
    ensures GroupsOf(init + [s], AddSkill(groups, s))
  {
    var skills := init + [s];
    var r := AddSkill(groups, s);
    assert CategoriesOf(skills) == CategoriesOf(init) + [s.category];
    assert s.category !in Keys(groups);
    DedupSnoc(CategoriesOf(init), s.category);
    assert Keys(r) == Keys(groups) + [s.category];
    forall j | 0 <= j < |r|
      ensures GroupHolds(skills, r[j])
    {
      if j == |groups| {
        FilterAbsentCategory(init, s.category);
        assert GroupHolds(init, Group(s.category, []));
        GroupHoldsSnoc(init, s, Group(s.category, []));
      } else {
        GroupHoldsSnoc(init, s, groups[j]);
      }
    }
  }

  /** One reducer step keeps the grouping correct. */
  lemma {:induction false} AddSkillCorrect(init: seq<Skill>, s: Skill, groups: seq<Group>)
    requires GroupsOf(init, groups)
    ensures GroupsOf(init + [s], AddSkill(groups, s))
  {
    if GroupIndex(groups, s.category) < |groups| {
      AddToExisting(init, s, groups);
    } else {
      AddNew(init, s, groups);
    }
  }

  /** The reduce computes exactly the grouping. */
  lemma {:induction false} GroupedSkillsCorrect(skills: seq<Skill>)
    ensures GroupsOf(skills, GroupedSkills(skills))
  {
    if |skills| > 0 {
      var init := skills[..|skills| - 1];
      var x := skills[|skills| - 1];
      assert skills == init + [x];
      assert GroupedSkills(skills) == AddSkill(GroupedSkills(init), x);
      GroupedSkillsCorrect(init);
      AddSkillCorrect(init, x, GroupedSkills(init));
    }
  }

  /**
   What the section renders from the grouping: one group per category that
   occurs and none for a category that does not, no empty group, every skill
   in the group of its own category, groups in order of first occurrence.
   */
  lemma GroupingShape(skills: seq<Skill>)
    ensures var g := GroupedSkills(skills);
      && (forall c :: c in Keys(g) <==> c in CategoriesOf(skills))
      && Distinct(Keys(g))
      && (forall k :: 0 <= k < |g| ==> |g[k].skills| > 0)
      && (forall k, i :: 0 <= k < |g| && 0 <= i < |g[k].skills| ==> g[k].skills[i].category == g[k].category)
      && (forall k, i :: 0 <= k < |g| && 0 <= i < |g[k].skills| ==> g[k].skills[i] in skills)
  {
    GroupedSkillsCorrect(skills);
    var g := GroupedSkills(skills);
    forall k | 0 <= k < |g|
      ensures |g[k].skills| > 0
    {
      assert g[k].category in Keys(g);
      var i :| 0 <= i < |skills| && CategoriesOf(skills)[i] == g[k].category;
      assert GroupHolds(skills, g[k]);
      assert skills[i] in g[k].skills;
    }
    forall k, i | 0 <= k < |g| && 0 <= i < |g[k].skills|
      ensures g[k].skills[i].category == g[k].category && g[k].skills[i] in skills
    {
      assert GroupHolds(skills, g[k]);
      assert g[k].skills[i] in g[k].skills;
    }
  }

  /** Total number of skills across the groups. */
  function TotalSize(groups: seq<Group>): nat {
    if |groups| == 0 then 0 else |groups[0].skills| + TotalSize(groups[1..])
  }

  /** Replacing one group changes the total by the change in that group's size. */
  lemma {:induction false} TotalSizeUpdate(groups: seq<Group>, k: nat, g: Group)
    requires k < |groups|
    ensures TotalSize(groups[k := g]) == TotalSize(groups) - |groups[k].skills| + |g.skills|
  {
    if k > 0 {
      assert groups[k := g][1..] == groups[1..][k - 1 := g];
      TotalSizeUpdate(groups[1..], k - 1, g);
    }
  }

  /** Appending a group adds its size to the total. */
  lemma {:induction false} TotalSizeAppend(groups: seq<Group>, g: Group)
    ensures TotalSize(groups + [g]) == TotalSize(groups) + |g.skills|
  {
    if |groups| > 0 {
      assert (groups + [g])[1..] == groups[1..] + [g];
      TotalSizeAppend(groups[1..], g);
    }
  }

  /** The skills the section declares. */
  const DeclaredSkills: seq<Skill> := [
    Skill("1", "React", Technical, 90, None, Some("#61DAFB")),
    Skill("2", "TypeScript", Technical, 85, None, Some("#3178C6")),
    Skill("3", "Node.js", Technical, 80, None, Some("#339933")),
    Skill("4", "Python", Technical, 75, None, Some("#3776AB")),
    Skill("5", "MongoDB", Technical, 70, None, Some("#47A248")),
    Skill("6", "PostgreSQL", Technical, 75, None, Some("#4169E1")),
    Skill("7", "Git", Tool, 85, None, Some("#F05032")),
    Skill("8", "Docker", Tool, 70, None, Some("#2496ED")),
    Skill("9", "AWS", Tool, 65, None, Some("#FF9900")),
    Skill("10", "Figma", Tool, 80, None, Some("#F24E1E")),
    Skill("11", "Leadership", Soft, 85, None, Some("#8B5CF6")),
    Skill("12", "Communication", Soft, 90, None, Some("#EC4899")),
    Skill("13", "Problem Solving", Soft, 95, None, Some("#10B981")),
    Skill("14", "Teamwork", Soft, 90, None, Some("#F59E0B")),
    Skill("15", "Vietnamese", Language, 100, None, Some("#EF4444")),
    Skill("16", "English", Language, 80, None, Some("#3B82F6"))
  ]

  /** The categories of the declared skills, in declaration order. */
  lemma DeclaredCategories()
    ensures CategoriesOf(DeclaredSkills)
      == [Technical, Technical, Technical, Technical, Technical, Technical,
          Tool, Tool, Tool, Tool, Soft, Soft, Soft, Soft, Language, Language]
  {
  }

  /** Appending a non-empty run of one new category adds that category once. */
  lemma {:induction false} DedupAppendRun(p: seq<SkillCategory>, q: seq<SkillCategory>, c: SkillCategory)
    requires |q| > 0 && forall i :: 0 <= i < |q| ==> q[i] == c
    requires c !in p
    ensures Dedup(p + q) == Dedup(p) + [c]
  {
    DedupSnoc(p, c);
    assert q == [c] + q[1..];
    assert p + q == (p + [c]) + q[1..];
    DedupAppendSeen(p + [c], q[1..]);
  }

  /** Four runs of technical, tool, soft and language categories, deduplicated. */
  lemma {:induction false} DedupOfRuns(a: seq<SkillCategory>, b: seq<SkillCategory>, c: seq<SkillCategory>, d: seq<SkillCategory>)
    requires |a| > 0 && forall i :: 0 <= i < |a| ==> a[i] == Technical
    requires |b| > 0 && forall i :: 0 <= i < |b| ==> b[i] == Tool
    requires |c| > 0 && forall i :: 0 <= i < |c| ==> c[i] == Soft
    requires |d| > 0 && forall i :: 0 <= i < |d| ==> d[i] == Language
    ensures Dedup(a + b + c + d) == [Technical, Tool, Soft, Language]
  {
    var e: seq<SkillCategory> := [];
    assert e + a == a;
    assert Tool !in a by { forall i | 0 <= i < |a| ensures a[i] != Tool { } }
    assert Soft !in a + b by { forall i | 0 <= i < |a + b| ensures (a + b)[i] != Soft { } }
    assert Language !in a + b + c by {
      forall i | 0 <= i < |a + b + c| ensures (a + b + c)[i] != Language { }
    }
    DedupAppendRun(e, a, Technical);
    DedupAppendRun(a, b, Tool);
    DedupAppendRun(a + b, c, Soft);
    DedupAppendRun(a + b + c, d, Language);
  }

  /** The declared categories, each counted once in order of first occurrence. */
  lemma DeclaredCategoryOrder()
    ensures Dedup(CategoriesOf(DeclaredSkills)) == [Technical, Tool, Soft, Language]
  {
    var a := [Technical, Technical, Technical, Technical, Technical, Technical];
    var b, c, d := [Tool, Tool, Tool, Tool], [Soft, Soft, Soft, Soft], [Language, Language];
    DeclaredCategories();
    assert CategoriesOf(DeclaredSkills) == a + b + c + d;
    DedupOfRuns(a, b, c, d);
  }

  /**
   The declared skills group into technical, tool, soft and language, in
   that order, with 16 skills in all.
   */
  lemma DeclaredGrouping()
    ensures Keys(GroupedSkills(DeclaredSkills)) == [Technical, Tool, Soft, Language]
    ensures TotalSize(GroupedSkills(DeclaredSkills)) == 16
  {
    GroupedSkillsCorrect(DeclaredSkills);
    DeclaredCategoryOrder();
  }
}

=== FILE: strings.dfy ===
/**
 The string operations the components use: `split` on a one-character
 separator, decimal rendering of a non-negative integer (template
 interpolation of `Date.now()` and of a count), and `parseInt` on a
 leading run of decimal digits.
 */
module Strings {

  import opened Optional

  predicate IsDigit(c: char) {
    '0' <= c <= '9'
  }

  predicate AllDigits(s: string) {
    forall i :: 0 <= i < |s| ==> IsDigit(s[i])
  }

  /** A digit string as JavaScript renders a number: non-empty, no leading zero unless it is "0". */
  predicate Canonical(s: string) {
    |s| >= 1 && AllDigits(s) && (|s| > 1 ==> s[0] != '0')
  }

  function DigitChar(d: nat): (c: char)
    requires d < 10
    ensures IsDigit(c) && c as int - '0' as int == d
  {
    (d + '0' as int) as char
  }

  function DigitValue(c: char): (d: nat)
    requires IsDigit(c)
    ensures d < 10 && DigitChar(d) == c
  {
    c as int - '0' as int
  }

  /** Ten to the power `n`. */
  function Pow10(n: nat): (p: nat)
    ensures p >= 1
  {
    if n == 0 then 1 else 10 * Pow10(n - 1)
  }

  /**
   The value of a string of decimal digits; the empty string reads as 0.
   A string of `n` digits is worth less than 10^n, and at least 10^(n-1)
   when it does not start with a zero.
   */
  function ParseDecimal(s: string): (r: nat)
    requires AllDigits(s)
    ensures r < Pow10(|s|)
    ensures |s| > 0 && s[0] != '0' ==> Pow10(|s| - 1) <= r
  {
    if |s| == 0 then 0
    else
      var init := s[..|s| - 1];
      assert |s| > 1 ==> init[0] == s[0];
      ParseDecimal(init) * 10 + DigitValue(s[|s| - 1])
  }

  /** The decimal text of `n`, as `String(n)` and template interpolation produce it. */
  function NatToString(n: nat): (r: string)
    ensures Canonical(r)
    ensures ParseDecimal(r) == n
  {
    if n < 10 then [DigitChar(n)]
    else
      var r := NatToString(n / 10) + [DigitChar(n % 10)];
      assert r[..|r| - 1] == NatToString(n / 10);
      r
  }

  /** Reading a canonical digit string and rendering the value gives the string back. */
  lemma {:induction false} RenderParse(s: string)
    requires Canonical(s)
    ensures NatToString(ParseDecimal(s)) == s
  {
    var last := s[|s| - 1];
    var init := s[..|s| - 1];
    if |s| == 1 {
      assert init == "" && ParseDecimal(init) == 0;
      assert s == [DigitChar(ParseDecimal(s))];
    } else {
      assert Canonical(init) && init[0] != '0';
      RenderParse(init);
      RenderStep(ParseDecimal(init), DigitValue(last));
      assert s == init + [last];
    }
  }

  /** Rendering a number with one more digit appends that digit's character. */
  lemma RenderStep(q: nat, d: nat)
    requires 1 <= q && d < 10
    ensures NatToString(q * 10 + d) == NatToString(q) + [DigitChar(d)]
  {
    DecimalStep(q, d);
  }

  /** Shifting a digit in and out again. */
  lemma DecimalStep(q: nat, d: nat)
    requires d < 10
    ensures (q * 10 + d) / 10 == q && (q * 10 + d) % 10 == d
  {
  }

  /** The longest prefix of `s` made of decimal digits. */
  function LeadingDigits(s: string): (r: string)
    ensures r <= s && AllDigits(r)
    ensures |r| < |s| ==> !IsDigit(s[|r|])
  {
    if |s| == 0 || !IsDigit(s[0]) then ""
    else [s[0]] + LeadingDigits(s[1..])
  }

  /**
   `parseInt(s)` on a string without leading blanks or sign: the value of its
   leading digits, or `None` (JavaScript's NaN) when it starts with no digit.
   */
  function ParseInt(s: string): (r: Option<nat>)
    ensures r.None? <==> (|s| == 0 || !IsDigit(s[0]))
  {
    var d := LeadingDigits(s);
    if |d| == 0 then None else Some(ParseDecimal(d))
  }

  /** The leading digits of a digit string followed by text that does not start with a digit are that string. */
  lemma {:induction false} LeadingDigitsAppend(d: string, t: string)
    requires AllDigits(d)
    requires |t| == 0 || !IsDigit(t[0])
    ensures LeadingDigits(d + t) == d
  {
    if |d| == 0 {
      assert d + t == t;
    } else {
      assert (d + t)[0] == d[0];
      assert (d + t)[1..] == d[1..] + t;
      LeadingDigitsAppend(d[1..], t);
    }
  }

  /** `parseInt` reads a rendered number back, whatever non-digit text follows it. */
  lemma ParseIntReadsRendering(n: nat, t: string)
    requires |t| == 0 || !IsDigit(t[0])
    ensures ParseInt(NatToString(n) + t) == Some(n)
  {
    LeadingDigitsAppend(NatToString(n), t);
  }

  /** A run of `k` zero digits. */
  function Zeros(k: nat): (z: string)
    ensures |z| == k && AllDigits(z)
    ensures ParseDecimal(z) == 0
  {
    if k == 0 then ""
    else
      var z := Zeros(k - 1) + "0";
      assert z[..k - 1] == Zeros(k - 1);
      z
  }

  /** Leading zeros do not change the value of a digit string. */
  lemma {:induction false} ParseDecimalZeros(k: nat, d: string)
    requires AllDigits(d)
    ensures AllDigits(Zeros(k) + d)
    ensures ParseDecimal(Zeros(k) + d) == ParseDecimal(d)
    decreases |d|
  {
    var s := Zeros(k) + d;
    assert AllDigits(s);
    if |d| == 0 {
      assert s == Zeros(k);
    } else {
      assert s[..|s| - 1] == Zeros(k) + d[..|d| - 1];
      assert s[|s| - 1] == d[|d| - 1];
      ParseDecimalZeros(k, d[..|d| - 1]);
    }
  }

  /** `parseInt` reads a rendered number behind any number of zeros, such as "003", as that number. */
  lemma ParseIntLeadingZeros(k: nat, n: nat, t: string)
    requires |t| == 0 || !IsDigit(t[0])
    ensures ParseInt(Zeros(k) + NatToString(n) + t) == Some(n)
  {
    ParseDecimalZeros(k, NatToString(n));
    LeadingDigitsAppend(Zeros(k) + NatToString(n), t);
  }

  /** `s.split(c)`: the pieces between occurrences of `c`; never empty. */
  function Split(s: string, c: char): (r: seq<string>)
    ensures |r| >= 1
    ensures forall i :: 0 <= i < |r| ==> c !in r[i]
    ensures r[0] <= s && (|r[0]| < |s| ==> s[|r[0]|] == c)
  {
    if |s| == 0 then [""]
    else
      var rest := Split(s[1..], c);
      if s[0] == c then [""] + rest
      else [[s[0]] + rest[0]] + rest[1..]
  }

  /** `parts.join(c)`. */
  function Join(parts: seq<string>, c: char): string
    requires |parts| >= 1
  {
    if |parts| == 1 then parts[0]
    else parts[0] + [c] + Join(parts[1..], c)
  }

  /** Joining the pieces of a split with the same separator restores the string. */
  lemma {:induction false} JoinSplit(s: string, c: char)
    ensures Join(Split(s, c), c) == s
  {
    if |s| > 0 {
      var rest := Split(s[1..], c);
      JoinSplit(s[1..], c);
      if s[0] == c {
        assert Split(s, c) == [""] + rest;
        assert ([""] + rest)[1..] == rest;
      } else {
        var r := Split(s, c);
        assert r[1..] == rest[1..];
        if |rest| == 1 {
          assert Join(r, c) == [s[0]] + rest[0];
        } else {
          assert rest == [rest[0]] + rest[1..];
          assert Join(rest, c) == rest[0] + [c] + Join(rest[1..], c);
          assert Join(r, c) == [s[0]] + rest[0] + [c] + Join(rest[1..], c);
        }
        assert s == [s[0]] + s[1..];
      }
    }
  }

  /** Splitting text that starts with a separator-free piece `p`. */
  lemma {:induction false} SplitPrefix(p: string, t: string, c: char)
    requires c !in p
    ensures Split(p + t, c) == [p + Split(t, c)[0]] + Split(t, c)[1..]
  {
    if |p| == 0 {
      assert p + t == t;
      var st := Split(t, c);
      assert st == [st[0]] + st[1..];
      assert p + st[0] == st[0];
    } else {
      assert (p + t)[1..] == p[1..] + t;
      assert (p + t)[0] == p[0] != c;
      SplitPrefix(p[1..], t, c);
      var st := Split(t, c);
      var rest := Split(p[1..] + t, c);
      assert rest == [p[1..] + st[0]] + st[1..];
      assert rest[0] == p[1..] + st[0] && rest[1..] == st[1..];
      assert Split(p + t, c) == [[p[0]] + rest[0]] + rest[1..];
      assert [p[0]] + (p[1..] + st[0]) == p + st[0];
    }
  }

  /** Splitting a join of separator-free pieces recovers the pieces. */
  lemma {:induction false} SplitJoin(parts: seq<string>, c: char)
    requires |parts| >= 1
    requires forall i :: 0 <= i < |parts| ==> c !in parts[i]
    ensures Split(Join(parts, c), c) == parts
  {
    if |parts| == 1 {
      SplitPrefix(parts[0], "", c);
      assert parts[0] + "" == parts[0];
    } else {
      var tail := Join(parts[1..], c);
      SplitJoin(parts[1..], c);
      assert ([c] + tail)[1..] == tail;
      assert Split([c] + tail, c) == [""] + parts[1..];
      assert parts[0] + [c] + tail == parts[0] + ([c] + tail);
      SplitPrefix(parts[0], [c] + tail, c);
      assert parts[0] + "" == parts[0];
      assert parts == [parts[0]] + parts[1..];
    }
  }
}

=== FILE: timeline.dfy ===
/**
 The date label of a timeline entry: `"YYYY-MM"` becomes `"Mon YYYY"` and
 `"Present"` is shown as it is. The month is read with `parseInt` and
 looked up in a twelve-entry table with no range check, so a month outside
 1..12, or a date without a month, yields JavaScript's `undefined`, which
 the template renders as the text "undefined".
 */
module Timeline {

  import opened Optional
  import opened Strings
  import Seqs

  /** The twelve month abbreviations in calendar order. */
  const MonthNames: seq<string> :=
    ["Jan", "Feb", "Mar", "Apr", "May", "Jun", "Jul", "Aug", "Sep", "Oct", "Nov", "Dec"]

  /** How a template literal renders an `undefined` table entry. */
  const Undefined: string := "undefined"

  /** `monthNames[parseInt(month) - 1]`, with `None` for a missing piece (`parseInt(undefined)` is NaN). */
  function MonthLabel(month: Option<string>): (r: string)
    ensures r == Undefined || r in MonthNames
    ensures month.Some? && ParseInt(month.value).Some? && 1 <= ParseInt(month.value).value <= 12
            ==> r == MonthNames[ParseInt(month.value).value - 1]
    ensures !(month.Some? && ParseInt(month.value).Some? && 1 <= ParseInt(month.value).value <= 12)
            ==> r == Undefined
  {
    match month
    case None => Undefined
    case Some(text) =>
      match ParseInt(text)
      case Some(m) => if 1 <= m <= 12 then MonthNames[m - 1] else Undefined
      case None => Undefined
  }

  /** `formatDate(date)`. */
  function FormatDate(date: string): (r: string)
    ensures date == "Present" ==> r == "Present"
    ensures date != "Present" ==>
      var year := Split(date, '-')[0];
      |year| < |r| && r[|r| - |year|..] == year && r[|r| - |year| - 1] == ' '
  {
    if date == "Present" then date
    else
      var parts := Split(date, '-');
      var month := if |parts| > 1 then Some(parts[1]) else None;
      var r := MonthLabel(month) + " " + parts[0];
      assert r[|r| - |parts[0]|..] == parts[0];
      r
  }

  /** A month number written with two digits, as the timeline data writes it. */
  function TwoDigits(m: nat): (s: string)
    requires m < 100
    ensures |s| == 2 && AllDigits(s)
  {
    [DigitChar(m / 10), DigitChar(m % 10)]
  }

  /** The leading digits of a digit string are the whole string. */
  lemma {:induction false} LeadingDigitsOfDigits(s: string)
    requires AllDigits(s)
    ensures LeadingDigits(s) == s
  {
    if |s| > 0 {
      LeadingDigitsOfDigits(s[1..]);
      assert s == [s[0]] + s[1..];
    }
  }

  /** `parseInt` reads a two-digit month back as its number. */
  lemma ParseTwoDigits(m: nat)
    requires m < 100
    ensures ParseInt(TwoDigits(m)) == Some(m)
  {
    var s := TwoDigits(m);
    LeadingDigitsOfDigits(s);
    assert s[..1][..0] == "";
    assert ParseDecimal(s[..1]) == m / 10;
    assert ParseDecimal(s) == (m / 10) * 10 + m % 10;
  }

  /** A dated entry `year-MM` splits into its year and its month text, and is not "Present". */
  lemma SplitDate(year: string, mm: string)
    requires '-' !in year && '-' !in mm
    ensures Split(year + "-" + mm, '-') == [year, mm]
    ensures year + "-" + mm != "Present"
  {
    var date := year + "-" + mm;
    assert Join([year, mm], '-') == date by {
      assert [year, mm][1..] == [mm];
    }
    SplitJoin([year, mm], '-');
    assert date[|year|] == '-';
    assert '-' !in "Present";
  }

  /**
   For a year and a month text without dashes, where `parseInt` reads the
   month as m in 1..12, the label is the month's abbreviation, a blank and
   the year.
   */
  lemma FormatYearMonth(year: string, mm: string, m: nat)
    requires '-' !in year && '-' !in mm
    requires ParseInt(mm) == Some(m) && 1 <= m <= 12
    ensures FormatDate(year + "-" + mm) == MonthNames[m - 1] + " " + year
  {
    SplitDate(year, mm);
  }

  /**
   A month text that `parseInt` cannot read, or reads as a number outside
   1..12, is rendered as "undefined": nothing guards the table lookup.
   */
  lemma OutOfRangeMonth(year: string, mm: string)
    requires '-' !in year && '-' !in mm
    requires ParseInt(mm).None? || !(1 <= ParseInt(mm).value <= 12)
    ensures FormatDate(year + "-" + mm) == Undefined + " " + year
  {
    SplitDate(year, mm);
  }

  /** A date without a dash has no month piece, so its label is "undefined" and the date. */
  lemma MonthlessDate(year: string)
    requires '-' !in year && year != "Present"
    ensures FormatDate(year) == Undefined + " " + year
  {
    assert Join([year], '-') == year;
    SplitJoin([year], '-');
  }

  /** The timeline's own dates write the month with two digits, which `parseInt` reads back. */
  lemma FormatTwoDigitMonth(year: string, m: nat)
    requires '-' !in year && 1 <= m <= 12
    ensures FormatDate(year + "-" + TwoDigits(m)) == MonthNames[m - 1] + " " + year
  {
    ParseTwoDigits(m);
    assert '-' !in TwoDigits(m);
    FormatYearMonth(year, TwoDigits(m), m);
  }

  /** The month table has twelve distinct entries, January first and December last. */
  lemma MonthTable()
    ensures |MonthNames| == 12 && Seqs.Distinct(MonthNames)
    ensures MonthNames[0] == "Jan" && MonthNames[11] == "Dec"
  {
  }
}

=== FILE: types.dfy ===
/** Optional values: `None` stands for an absent field, `null` or `undefined`. */
module Optional {

  datatype Option<+T> = None | Some(value: T)
}

/**
 The record shapes the portfolio components share: projects, gallery items,
 skills, timeline entries and the admin user. TypeScript's optional fields
 (`field?: T`) become `Option`s and its string-literal unions become
 enumerations, so an out-of-range tag cannot be represented at all.
 */
module Types {

  import opened Optional

  /** `TimelineItem.type`: exactly education or work. */
  datatype TimelineKind = Education | Work

  /** `GalleryItem.type`: exactly image or document. */
  datatype MediaKind = Image | Document

  /** `Skill.category`: exactly one of four categories. */
  datatype SkillCategory = Technical | Soft | Language | Tool

  /** A skill level is documented to lie in 1..100; the subset type makes that an invariant. */
  type Level = l: int | 1 <= l <= 100 witness 1

  datatype TimelineItem = TimelineItem(
    id: string,
    kind: TimelineKind,
    title: string,
    organization: string,
    location: string,
    startDate: string,
    endDate: string,
    description: string,
    skills: Option<seq<string>>,
    logo: Option<string>)

  datatype Project = Project(
    id: string,
    title: string,
    description: string,
    longDescription: Option<string>,
    image: string,
    technologies: seq<string>,
    githubUrl: Option<string>,
    liveUrl: Option<string>,
    startDate: string,
    endDate: Option<string>,
    role: string,
    teamSize: Option<int>,
    highlights: Option<seq<string>>)

  datatype GalleryItem = GalleryItem(
    id: string,
    kind: MediaKind,
    title: string,
    description: Option<string>,
    url: string,
    thumbnail: Option<string>,
    category: string,
    date: string,
    tags: Option<seq<string>>)

  datatype Skill = Skill(
    id: string,
    name: string,
    category: SkillCategory,
    level: Level,
    icon: Option<string>,
    color: Option<string>)

  /** The signed-in administrator; only the token is optional. */
  datatype AdminUser = AdminUser(
    id: string,
    username: string,
    email: string,
    token: Option<string>)
}
